=== FILE: README.md ===
# Spotivity popup: lyrics rendering and popup state, modelled in Dafny

Spotivity is a browser extension. Its popup logs the user in to Spotify, asks a backend to
translate the lyrics of the song that is playing, and shows the original and translated lyrics
side by side. This project models the two parts of the popup that hold logic. The other parts
are presentation, browser APIs and network plumbing.

* **The lyrics view** (`LyricsDisplay.jsx`), in `lyrics_display.dfy`. It is a pure pipeline over
  strings:
  - lyrics that are absent or empty render nothing;
  - CR LF and lone CR become LF;
  - the text is split on LF;
  - segments that are blank after `trim()` are dropped;
  - each kept line is shown trimmed and flagged as a section header when it matches
    `/^\[.*\]$/`;
  - the translated text goes through the same steps, and its section appears only when that
    text is truthy.

  Every step is a function, and the lemmas state what the pipeline promises:
  - blank lines never survive;
  - the kept lines are the non-blank segments, in order;
  - every mix of line-break conventions gives the same lines;
  - the header test is exactly "starts with `[`, ends with `]`, no line terminator in between";
  - normalising the displayed lines a second time changes nothing.

* **The JavaScript string semantics the view relies on**, in `js_text.dfy`: truthiness of a
  string that may be missing, the `||` fallback, and `String.prototype.trim`. The whitespace set
  is written out as ECMAScript's WhiteSpace and LineTerminator characters.

* **The popup component** (`Popup.jsx`), in `popup.dfy`. It is a class with the component's six
  state fields and one method per handler:
  - mount;
  - the login redirect callback;
  - logout;
  - translate, which has a synchronous start and a completion;
  - language selection.

  Whatever the handlers read from the browser or the network is a parameter: the stored token,
  what the authorisation flow hands back, and the backend. The backend is a function from the
  request to the fetch result, so the model can say which request is sent. The decisions of the
  handlers are the pure functions `LoginResult` and `TranslateResult`. The `Click…` methods run
  each handler only when the rendered controls allow it, and they preserve the invariant
  `Consistent`:
  - nothing is loading between actions;
  - an error and lyrics are never shown together;
  - both texts are set or cleared together;
  - lyrics are shown only to a logged-in user;
  - no one is logged in before the mount effect has run;
  - the language is one the menu offers.

Two behaviours of the code are easy to miss, and the model follows the code in both:

* Lyrics made only of whitespace are truthy. The code therefore renders the view, with an
  "Original Lyrics" heading and no line under it. It does not render nothing
  (`WhitespaceLyricsShowEmptySection`). Likewise, a whitespace-only translation still opens
  the Translated section.
* In the header pattern, `.` does not match a line terminator. A trimmed line such as
  `[a<U+2028>b]` is therefore not a header, even though brackets enclose it
  (`TerminatorBreaksHeader`). `.` matches brackets and spaces, so only the first and last
  characters must be `[` and `]`: `[a] [b]` is a header.

## Model

| member | source | states |
|---|---|---|
| JsText.Trim | extension/src/popup/LyricsDisplay.jsx:8 | the trimmed text neither starts nor ends with a whitespace character |
| JsText.TrimIsSlice | extension/src/popup/LyricsDisplay.jsx:25 | the trimmed text is a contiguous slice of the line with only whitespace before and after it |
| JsText.TrimEmptyIff | extension/src/popup/LyricsDisplay.jsx:8 | `line.trim() !== ''` holds exactly when the line has a non-whitespace character |
| JsText.TrimKeepsCharacters | extension/src/popup/LyricsDisplay.jsx:25 | trimming introduces no character that was not in the line |
| JsText.Truthy | extension/src/popup/LyricsDisplay.jsx:4 | definition: JavaScript truthiness of a string that may be missing (absent or empty is falsy), as in `!lyrics`, `translatedLyrics ?` and `translatedLyrics &&` (lines 4, 11, 31); the term in which the contracts of `Render`, `LoginResult` and `TranslateResult` are stated |
| JsText.OrElse | extension/src/popup/Popup.jsx:109-110 | the logical-or fallback yields the string `a` holds or the fallback, and it is never empty when the fallback is not (also lines 47 and 105) |
| LyricsDisplay.NormalizeEol | extension/src/popup/LyricsDisplay.jsx:7 | the CR LF / CR rewrite yields the empty text exactly for the empty text |
| LyricsDisplay.NormalizeEolRemovesCr | extension/src/popup/LyricsDisplay.jsx:7 | no CR survives the rewrite, and a text without CR is left unchanged |
| LyricsDisplay.NormalizeEolChars | extension/src/popup/LyricsDisplay.jsx:7 | the rewrite only turns CR into LF: every other character is kept, and only LF is added |
| LyricsDisplay.Split | extension/src/popup/LyricsDisplay.jsx:8 | `split('\n')` gives at least one segment, no segment holds LF, and joining the segments with LF gives the text back |
| LyricsDisplay.SplitJoinLF | extension/src/popup/LyricsDisplay.jsx:8 | splitting LF-joined, LF-free lines gives those lines back |
| LyricsDisplay.KeepNonBlank | extension/src/popup/LyricsDisplay.jsx:8 | the filter keeps no blank segment and invents none, and it keeps at most as many segments as it is given |
| LyricsDisplay.KeepNonBlankAppend | extension/src/popup/LyricsDisplay.jsx:8 | filtering distributes over concatenation, so the relative order of the kept segments is unchanged |
| LyricsDisplay.KeepNonBlankKeepsAll | extension/src/popup/LyricsDisplay.jsx:8 | when no segment is blank, the filter returns them all |
| LyricsDisplay.IsBlank | extension/src/popup/LyricsDisplay.jsx:8 | the filter callback rejects a segment exactly when it is empty or all whitespace |
| LyricsDisplay.NonBlankPositions | extension/src/popup/LyricsDisplay.jsx:8 | the positions of non-blank segments: increasing, in range, and every non-blank segment listed |
| LyricsDisplay.FilterSelectsNonBlank | extension/src/popup/LyricsDisplay.jsx:8 | the kept lines are the segments at the non-blank positions, in order: a subsequence with exactly one line per non-blank segment |
| LyricsDisplay.IsHeader | extension/src/popup/LyricsDisplay.jsx:19 | `/^\[.*\]$/.test(...)` on a trimmed line: a header has at least two characters, the first `[` and the last `]` (also line 35) |
| LyricsDisplay.MatchesRestOfHeader | extension/src/popup/LyricsDisplay.jsx:19 | the part of the regex after `^\[` (`.*\]$`): whatever it matches ends with `]` |
| LyricsDisplay.HeaderIffBracketed | extension/src/popup/LyricsDisplay.jsx:19 | the regex `/^\[.*\]$/` matches exactly the texts that start with `[`, end with `]` and hold no line terminator between them |
| LyricsDisplay.RestOfHeaderIff | extension/src/popup/LyricsDisplay.jsx:35 | the part after `[` matches `.*\]$` exactly when it ends with `]` and has no line terminator before that |
| LyricsDisplay.HeaderExamples | extension/src/popup/LyricsDisplay.jsx:19 | `[Chorus]`, `[]` and `[a] [b]` are headers |
| LyricsDisplay.NonHeaderExamples | extension/src/popup/LyricsDisplay.jsx:19 | `Chorus`, `[Verse 1] extra` and a lone `[` are not headers |
| LyricsDisplay.TerminatorBreaksHeader | extension/src/popup/LyricsDisplay.jsx:35 | a bracketed text holding U+2028 is not a header, because `.` does not match a line terminator |
| LyricsDisplay.Lines | extension/src/popup/LyricsDisplay.jsx:7-8 | the lines kept from one text (also lines 11-12): none is blank, and the empty text gives none |
| LyricsDisplay.Display | extension/src/popup/LyricsDisplay.jsx:18-27 | the `map` over the kept lines (also lines 34-44): one row per line, its text already trimmed and empty exactly when the line is blank |
| LyricsDisplay.ShownLines | extension/src/popup/LyricsDisplay.jsx:7-25 | every displayed line is non-empty, already trimmed and holds neither LF nor CR, and it is flagged as a header exactly when it is bracketed |
| LyricsDisplay.Render | extension/src/popup/LyricsDisplay.jsx:4-12 | nothing is rendered unless the lyrics are truthy, even when a translation is present; the Original section shows the lyrics' lines; the Translated section appears exactly when the translation is truthy and shows its lines |
| LyricsDisplay.WhitespaceLyricsShowEmptySection | extension/src/popup/LyricsDisplay.jsx:4-18 | whitespace-only lyrics still render the view, with an empty Original section |
| LyricsDisplay.AnyLineBreakConvention | extension/src/popup/LyricsDisplay.jsx:7-8 | lines separated by any mix of LF, CR LF and CR display as the non-blank ones among them, in order |
| LyricsDisplay.MixedConventionsAgree | extension/src/popup/LyricsDisplay.jsx:11-12 | the same lines written with two different choices of line breaks give the same displayed lines |
| LyricsDisplay.JoinCrThenEmptyLf | extension/src/popup/LyricsDisplay.jsx:7 | a CR, an empty line and an LF are the same text as a single CR LF, which is the one ambiguity of the rewrite |
| LyricsDisplay.LinesEmptyIffWhitespace | extension/src/popup/LyricsDisplay.jsx:8 | a text yields no line exactly when it is empty or whitespace only |
| LyricsDisplay.RenormaliseIdempotent | extension/src/popup/LyricsDisplay.jsx:7-8 | joining the displayed lines with LF and normalising again gives the same displayed lines |
| LyricsDisplay.RejoinedLines | extension/src/popup/LyricsDisplay.jsx:8 | trimmed, non-empty, break-free lines joined by LF come back unchanged |
| LyricsDisplay.ExampleMixedLineEndings | extension/src/popup/LyricsDisplay.jsx:7-25 | `"Line one\r\n\r\nLine two\r"` shows exactly the two non-header lines `Line one` and `Line two` |
| PopupView.LoginResult | extension/src/popup/Popup.jsx:45-67 | the redirect callback accepts a token exactly when there is no runtime error, the redirect URL is truthy, it parses and its fragment holds a non-empty token; the accepted token is that parameter; every failure carries a non-empty message |
| PopupView.LoginFailureCauses | extension/src/popup/Popup.jsx:46-66 | a failed login's message tells its cause: `Login failed: ` for a runtime error or a missing URL, with the runtime's message when it has one; `Error processing login: ` for a URL that does not parse; the missing-token message otherwise |
| PopupView.TranslateResult | extension/src/popup/Popup.jsx:85-112 | without a stored token the outcome is `Please login to Spotify first`; lyrics produced by a translate are never empty |
| PopupView.TranslateAsksOnce | extension/src/popup/Popup.jsx:86-101 | the outcome depends on the backend only through one request that carries the selected language and the stored token |
| PopupView.TranslateRejected | extension/src/popup/Popup.jsx:103-106 | a non-ok response fails with the body's non-empty `error` field, or else with `Translation failed`; an unparsable body counts as `{}` |
| PopupView.TranslateAccepted | extension/src/popup/Popup.jsx:108-110 | an ok JSON response fills both texts from their fields, or with `No lyrics available` / `Translation not available` when a field is missing or empty |
| PopupView.TranslateSucceedsIff | extension/src/popup/Popup.jsx:85-112 | lyrics come back exactly when a token is stored and the backend answers ok with JSON; when the runtime's error messages are non-empty, every failure carries a non-empty message |
| PopupView.Popup.constructor | extension/src/popup/Popup.jsx:15-20 | the initial state: `en`, no lyrics, no translation, not loading, no error, logged out |
| PopupView.Popup.Mount | extension/src/popup/Popup.jsx:23-27 | the mount effect sets the login flag to whether a non-empty token is stored, changes nothing else and keeps `Consistent` |
| PopupView.Popup.HandleLoginCallback | extension/src/popup/Popup.jsx:45-67 | an accepted token is written to storage, logs the user in and clears the error; a failure sets the non-empty message and keeps the login flag; the lyrics are untouched |
| PopupView.Popup.HandleLogout | extension/src/popup/Popup.jsx:71-77 | logs out and clears both texts, so the lyrics view renders nothing; the error, the language and `loading` are unchanged |
| PopupView.Popup.StartTranslate | extension/src/popup/Popup.jsx:80-83 | loading is set, and the error and both texts are cleared |
| PopupView.Popup.CompleteTranslate | extension/src/popup/Popup.jsx:85-115 | sets either the error or both texts from `TranslateResult`, and resets `loading` in every case |
| PopupView.Popup.HandleTranslate | extension/src/popup/Popup.jsx:79-116 | after a translate, `loading` is false. Either the error is set and no lyrics are shown, or both texts are non-empty and there is no error. With no token the error is `Please login to Spotify first`. Exactly one of the error and the lyrics is non-empty when the runtime's messages are |
| PopupView.Popup.SelectLanguage | extension/src/popup/Popup.jsx:136-141 | the menu's change handler sets the target language and nothing else |
| PopupView.Popup.TranslateEnabled | extension/src/popup/Popup.jsx:151 | the negation of the `disabled` expression (not loading and logged in); between actions, where `Consistent` holds, the button is enabled exactly when the user is logged in, because no translate is then in flight |
| PopupView.Popup.Shown | extension/src/popup/Popup.jsx:163-167 | the lyrics view is rendered exactly when the lyrics are non-empty |
| PopupView.Popup.ClickLogin | extension/src/popup/Popup.jsx:122-130 | the login button, shown only to a logged-out user, has the callback's whole effect. An accepted token is written, logs the user in and clears the error. A failure sets its non-empty message. The texts, the language and `loading` stay, and `Consistent` is kept |
| PopupView.Popup.ClickLogout | extension/src/popup/Popup.jsx:122-124 | the logout button logs out and clears both texts, so nothing is rendered. The error, the language and `loading` stay, and `Consistent` is kept |
| PopupView.Popup.ClickTranslate | extension/src/popup/Popup.jsx:149-151 | the translate button is enabled only when logged in and not loading. A click sets either the error or both texts from `TranslateResult` and keeps `Consistent`. When the runtime's error messages are non-empty, exactly one of the error and the lyrics is shown |
| PopupView.Popup.PickLanguage | extension/src/popup/Popup.jsx:136-146 | the menu is enabled only when logged in. A pick sets one of the offered codes, changes nothing else and keeps `Consistent` |

## Left out

- `handleLogin` up to the callback: building the authorisation URL and calling
  `chrome.identity.launchWebAuthFlow` (`Popup.jsx` lines 29-44) is browser I/O. Only the redirect
  callback is modelled, with its inputs as an `AuthCallback` value.
- URL parsing: `new URL(...)`, `.hash` and `URLSearchParams` become the `UrlParse` input, either
  the constructor's error message or the `access_token` parameter.
- `chrome.storage`: reads are parameters (`stored`); the write on login is the out-parameter
  `written`; the removal on logout is not represented.
- `fetch`: the backend is a function parameter, so the model does not represent the backend's
  own behaviour.
- Non-object JSON bodies: a JSON `null` body would make the code throw a `TypeError`. The model
  does not represent that, nor `lyrics`, `translated_lyrics` or `error` fields that are not
  strings.
- Concurrency: each handler runs as one atomic step. The model does not cover overlapping
  translates, a logout while a translate is in flight, or callbacks that arrive late. So the
  `loading` half of the translate button's guard, which matters only while a translate is in
  flight, never decides anything between the model's actions (`TranslateEnabled`).
- Strings: a Dafny `string` holds Unicode scalar values, while a JavaScript string holds UTF-16
  code units. Lone surrogates cannot be represented. No outcome here depends on the difference:
  every whitespace character and line terminator lies in the Basic Multilingual Plane, and
  surrogates are never whitespace.
- Rendering: JSX layout, styles, colours and the button labels are presentation.
- Other code: the backend services, the Next.js web app, the `lyricsApi.jsx` wrapper and the
  React mounting code (`index.jsx`) are not part of this model.
- PopupView.Popup.HandleTranslate: "exactly one of the error and the lyrics is non-empty" is
  stated only under `ThrowsWithMessage`. That assumption says the runtime's `fetch` and JSON
  parse errors carry non-empty messages, which the code assumes but does not check.
- PopupView.Popup.ClickTranslate: the same "exactly one" clause is likewise stated only under
  `ThrowsWithMessage`.

=== FILE: js_text.dfy ===
/** The small part of JavaScript's string semantics that the popup relies on:
    truthiness of an optional string, the `||` fallback, and `String.prototype.trim`. */
module JsText {

  datatype Option<+T> = None | Some(value: T)

  /** A value that is a string or absent (`undefined`/`null`) is truthy iff it is a non-empty string. */
  predicate Truthy(o: Option<string>)
  {
    o.Some? && o.value != []
  }

  /** `a || fallback` for a string-or-absent `a`: the string `a` holds or the fallback, and never
      empty when the fallback is not. */
  function OrElse(a: Option<string>, fallback: string): (r: string)
    ensures r == fallback || (a.Some? && r == a.value)
    ensures fallback != [] ==> r != []
  {
    if Truthy(a) then a.value else fallback
  }

  /** ECMAScript LineTerminator: LF, CR, LINE SEPARATOR, PARAGRAPH SEPARATOR. */
  predicate IsLineTerminator(c: char)
  {
    c == '\n' || c == '\r' || c == '\U{2028}' || c == '\U{2029}'
  }

  /** The characters `trim()` removes: ECMAScript WhiteSpace (TAB, VT, FF, SPACE, NO-BREAK SPACE,
      ZERO WIDTH NO-BREAK SPACE and every Zs space separator) and every LineTerminator. */
  predicate IsWhitespace(c: char)
  {
    || IsLineTerminator(c)
    || c == '\t' || c == '\U{000B}' || c == '\U{000C}' || c == ' '
    || c == '\U{00A0}' || c == '\U{FEFF}' || c == '\U{1680}'
    || ('\U{2000}' <= c <= '\U{200A}')
    || c == '\U{202F}' || c == '\U{205F}' || c == '\U{3000}'
  }

  ghost predicate AllWhitespace(s: string)
  {
    forall i :: 0 <= i < |s| ==> IsWhitespace(s[i])
  }

  /** Drops the longest all-whitespace prefix. */
  function TrimStart(s: string): (r: string)
    ensures |r| <= |s|
    ensures r == [] || !IsWhitespace(r[0])
  {
    if s != [] && IsWhitespace(s[0]) then TrimStart(s[1..]) else s
  }

  /** Drops the longest all-whitespace suffix. */
  function TrimEnd(s: string): (r: string)
    ensures |r| <= |s|
    ensures r == [] || !IsWhitespace(r[|r| - 1])
  {
    if s != [] && IsWhitespace(s[|s| - 1]) then TrimEnd(s[..|s| - 1]) else s
  }

  /** What `TrimStart` removes is a whitespace prefix. */
  lemma {:induction false} TrimStartIsSuffix(s: string)
    ensures TrimStart(s) == s[|s| - |TrimStart(s)|..]
    ensures AllWhitespace(s[..|s| - |TrimStart(s)|])
  {
    if s != [] && IsWhitespace(s[0]) {
      TrimStartIsSuffix(s[1..]);
      assert s[1..][..|s| - 1 - |TrimStart(s)|] == s[1..|s| - |TrimStart(s)|];
    }
  }

  /** What `TrimEnd` removes is a whitespace suffix. */
  lemma {:induction false} TrimEndIsPrefix(s: string)
    ensures TrimEnd(s) == s[..|TrimEnd(s)|]
    ensures AllWhitespace(s[|TrimEnd(s)|..])
  {
    if s != [] && IsWhitespace(s[|s| - 1]) {
      TrimEndIsPrefix(s[..|s| - 1]);
      assert s[..|s| - 1][|TrimEnd(s)|..] == s[|TrimEnd(s)|..|s| - 1];
    }
  }

  /** `s.trim()`: `s` without its leading and trailing whitespace; neither end of the result
      is whitespace (`TrimIsSlice` says where the result sits in `s`). */
  function Trim(s: string): (r: string)
    ensures r == [] || (!IsWhitespace(r[0]) && !IsWhitespace(r[|r| - 1]))
  {
    var t := TrimStart(s);
    TrimEndIsPrefix(t);
    TrimEnd(t)
  }

  /** The trimmed text is the slice `s[i..i + |r|]` with nothing but whitespace on either side. */
  lemma TrimIsSlice(s: string) returns (i: nat)
    ensures i + |Trim(s)| <= |s| && TrimmedAt(s, Trim(s), i)
  {
    var t := TrimStart(s);
    TrimStartIsSuffix(s);
    TrimEndIsPrefix(t);
    TrimStartEnd(s, t, TrimEnd(t));
    i := |s| - |t|;
  }

  lemma TrimStartEnd(s: string, t: string, r: string)
    requires |t| <= |s| && t == s[|s| - |t|..] && AllWhitespace(s[..|s| - |t|])
    requires |r| <= |t| && r == t[..|r|] && AllWhitespace(t[|r|..])
    ensures |s| - |t| + |r| <= |s| && TrimmedAt(s, r, |s| - |t|)
  {
    var n := |s| - |t|;
    assert r == s[n..n + |r|];
    assert t[|r|..] == s[n + |r|..];
  }

  /** `r` sits at offset `i` of `s` with nothing but whitespace before and after it. */
  ghost predicate TrimmedAt(s: string, r: string, i: nat)
    requires i + |r| <= |s|
  {
    r == s[i..i + |r|] && AllWhitespace(s[..i]) && AllWhitespace(s[i + |r|..])
  }

  /** Text that neither starts nor ends with whitespace is its own trim. */
  lemma TrimVisibleEnds(s: string)
    requires s != [] && !IsWhitespace(s[0]) && !IsWhitespace(s[|s| - 1])
    ensures Trim(s) == s
  {
  }

  /** Trimming twice is trimming once. */
  lemma TrimIdempotent(s: string)
    ensures Trim(Trim(s)) == Trim(s)
  {
  }

  /** A text trims to nothing iff it is all whitespace: the test `line.trim() !== ''` keeps exactly
      the lines that hold some non-whitespace character. */
  lemma TrimEmptyIff(s: string)
    ensures Trim(s) == [] <==> AllWhitespace(s)
  {
    var r := Trim(s);
    var i := TrimIsSlice(s);
    if r == [] {
      forall k | 0 <= k < |s| ensures IsWhitespace(s[k]) {
        if k < i {
          assert s[k] == s[..i][k];
        } else {
          assert s[k] == s[i..][k - i];
        }
      }
    } else {
      assert s[i] == r[0];
    }
  }

  /** Every character of the trimmed text occurs in the original. */
  lemma TrimKeepsCharacters(s: string, c: char)
    requires c in Trim(s)
    ensures c in s
  {
    var r := Trim(s);
    var i := TrimIsSlice(s);
    var k :| 0 <= k < |r| && r[k] == c;
    assert s[i + k] == c;
  }
}

=== FILE: lyrics_display.dfy ===
/** The text pipeline of the `LyricsDisplay` component: line-ending normalisation, splitting on
    LF, dropping blank segments, trimming, and the bracketed-header test, for the original
    lyrics and for the translation. */
module LyricsDisplay {
  import opened JsText

  // ---------------------------------------------------------------------------------------
  // Line endings

  /** `text.replace(/\r\n|\r/g, '\n')`: scanning left to right, a CR LF pair or a lone CR
      becomes one LF; every other character is kept. The result holds no CR, and it is empty
      only when the input is. */
  function NormalizeEol(s: string): (r: string)
    ensures r == [] <==> s == []
    decreases |s|
  {
    if s == [] then []
    else if s[0] == '\r' then
      if |s| > 1 && s[1] == '\n' then "\n" + NormalizeEol(s[2..]) else "\n" + NormalizeEol(s[1..])
    else [s[0]] + NormalizeEol(s[1..])
  }

  // ---------------------------------------------------------------------------------------
  // Splitting on LF and joining with LF

  /** `lines.join('\n')`. */
  function JoinLF(lines: seq<string>): string
  {
    if lines == [] then []
    else if |lines| == 1 then lines[0]
    else lines[0] + ("\n" + JoinLF(lines[1..]))
  }

  /** The three line-break conventions the normaliser accepts. */
  datatype LineBreak = LF | CRLF | CR

  function BreakText(b: LineBreak): string
  {
    match b
    case LF => "\n"
    case CRLF => "\r\n"
    case CR => "\r"
  }

  /** A text whose lines are `lines`, the `k`th and the next one separated by `breaks[k]`. */
  function JoinWith(lines: seq<string>, breaks: seq<LineBreak>): string
    requires |lines| == |breaks| + 1
    decreases |breaks|
  {
    if breaks == [] then lines[0]
    else lines[0] + (BreakText(breaks[0]) + JoinWith(lines[1..], breaks[1..]))
  }

  /** A line of text proper: it holds neither LF nor CR. */
  predicate NoLineBreaks(line: string)
  {
    '\n' !in line && '\r' !in line
  }

  /** `text.split('\n')`: the maximal LF-free runs of `s`, at least one (the empty text
      gives one empty segment). Joining them back with LF gives `s` again, and every
      character of a segment comes from `s`. */
  function Split(s: string): (r: seq<string>)
    ensures |r| >= 1
    ensures forall k :: 0 <= k < |r| ==> '\n' !in r[k]
    ensures JoinLF(r) == s
  {
    if s == [] then [[]]
    else if s[0] == '\n' then [[]] + Split(s[1..])
    else
      var t := Split(s[1..]);
      assert JoinLF([[s[0]] + t[0]] + t[1..]) == [s[0]] + JoinLF(t) by {
        if |t| > 1 {
          assert ([[s[0]] + t[0]] + t[1..])[1..] == t[1..];
        }
      }
      [[s[0]] + t[0]] + t[1..]
  }

  // ---------------------------------------------------------------------------------------
  // Dropping blank segments

  /** The filter `line => line.trim() !== ''` rejects a segment when this holds: exactly when
      the segment is empty or all whitespace. */
  predicate IsBlank(line: string)
    ensures IsBlank(line) <==> AllWhitespace(line)
  {
    TrimEmptyIff(line);
    Trim(line) == []
  }

  /** `segments.filter(line => line.trim() !== '')`. */
  function KeepNonBlank(segs: seq<string>): (r: seq<string>)
    ensures |r| <= |segs|
    ensures forall k :: 0 <= k < |r| ==> !IsBlank(r[k]) && r[k] in segs
  {
    if segs == [] then []
    else
      var rest := KeepNonBlank(segs[1..]);
      assert forall k :: 0 <= k < |rest| ==> rest[k] in segs by {
        forall k | 0 <= k < |rest| ensures rest[k] in segs {
          assert rest[k] in segs[1..];
        }
      }
      if IsBlank(segs[0]) then rest else [segs[0]] + rest
  }

  /** The positions `i >= from` of the non-blank segments, in increasing order: an independent
      description of what the filter keeps. */
  function NonBlankPositions(segs: seq<string>, from: nat): (p: seq<nat>)
    requires from <= |segs|
    ensures forall k :: 0 <= k < |p| ==> from <= p[k] < |segs| && !IsBlank(segs[p[k]])
    ensures forall k :: 0 < k < |p| ==> p[k - 1] < p[k]
    ensures forall i :: from <= i < |segs| && !IsBlank(segs[i]) ==> i in p
    decreases |segs| - from
  {
    if from == |segs| then []
    else
      var rest := NonBlankPositions(segs, from + 1);
      if IsBlank(segs[from]) then rest else [from] + rest
  }

  // ---------------------------------------------------------------------------------------
  // The header test

  /** `/^\[.*\]$/.test(t)`: a `[`, then what `.*\]$` matches. A header has at least the two
      brackets, the first character `[` and the last `]`. */
  predicate IsHeader(t: string)
    ensures IsHeader(t) ==> |t| >= 2 && t[0] == '[' && t[|t| - 1] == ']'
  {
    |t| >= 1 && t[0] == '[' && MatchesRestOfHeader(t[1..])
  }

  /** `.*\]$` matched against the whole of `s`: either `.*` is done and `s` is the closing `]`,
      or `.` takes the first character, which must not be a line terminator. What matches ends
      with `]`. */
  predicate MatchesRestOfHeader(s: string)
    ensures MatchesRestOfHeader(s) ==> |s| >= 1 && s[|s| - 1] == ']'
    decreases |s|
  {
    s == "]" || (|s| > 0 && !IsLineTerminator(s[0]) && MatchesRestOfHeader(s[1..]))
  }

  /** Enclosed in one pair of brackets `[` ... `]`, with no line terminator in between. */
  predicate Bracketed(t: string)
  {
    && |t| >= 2 && t[0] == '[' && t[|t| - 1] == ']'
    && forall i :: 1 <= i < |t| - 1 ==> !IsLineTerminator(t[i])
  }

  // ---------------------------------------------------------------------------------------
  // Displayed lines and the rendered view

  /** One rendered `<p>`: the trimmed text and whether it gets the header style. */
  datatype LyricLine = LyricLine(text: string, isHeader: bool)

  /** The texts of the rows, in order. */
  function Texts(rows: seq<LyricLine>): (r: seq<string>)
    ensures |r| == |rows|
  {
    seq(|rows|, k requires 0 <= k < |rows| => rows[k].text)
  }

  /** Lines 7-8 (and 11-12): the segments that survive the blank filter, not yet trimmed. None
      is blank, and the empty text has none. */
  function Lines(text: string): (r: seq<string>)
    ensures forall k :: 0 <= k < |r| ==> !IsBlank(r[k])
    ensures text == [] ==> r == []
  {
    KeepNonBlank(Split(NormalizeEol(text)))
  }

  /** The `map` of lines 18-27 and 34-44: each line shown trimmed, flagged by the regex test
      on the trimmed text. Every row's text is already trimmed, and it is empty exactly when its
      line is blank. */
  function Display(lines: seq<string>): (r: seq<LyricLine>)
    ensures |r| == |lines|
    ensures forall k :: 0 <= k < |r| ==> Trim(r[k].text) == r[k].text && (r[k].text == [] <==> IsBlank(lines[k]))
  {
    seq(|lines|, k requires 0 <= k < |lines| => LyricLine(Trim(lines[k]), IsHeader(Trim(lines[k]))))
  }

  /** The rows shown for one text. Each is non-empty, already trimmed, free of CR and LF, and
      it is a header exactly when it is bracketed. */
  function ShownLines(text: string): (r: seq<LyricLine>)
    ensures forall k :: 0 <= k < |r| ==>
      && r[k].text != [] && Trim(r[k].text) == r[k].text
      && '\n' !in r[k].text && '\r' !in r[k].text
      && (r[k].isHeader <==> Bracketed(r[k].text))
      && r[k].isHeader == IsHeader(r[k].text)
  {
    var lines := Lines(text);
    var r := Display(lines);
    assert forall k :: 0 <= k < |r| ==> '\n' !in r[k].text && '\r' !in r[k].text by {
      var n := NormalizeEol(text);
      var segs := Split(n);
      NormalizeEolRemovesCr(text);
      forall k | 0 <= k < |r| ensures '\n' !in r[k].text && '\r' !in r[k].text {
        assert lines[k] in segs;
        var j :| 0 <= j < |segs| && segs[j] == lines[k];
        if '\n' in r[k].text { TrimKeepsCharacters(lines[k], '\n'); }
        if '\r' in r[k].text {
          TrimKeepsCharacters(lines[k], '\r');
          SplitChars(n, j, '\r');
        }
      }
    }
    forall k | 0 <= k < |r| ensures r[k].text != [] && (r[k].isHeader <==> Bracketed(r[k].text)) {
      HeaderIffBracketed(r[k].text);
      TrimIdempotent(lines[k]);
    }
    r
  }

  /** What the component renders: nothing, or an "Original Lyrics" section and, optionally,
      a "Translated Lyrics" section. */
  datatype View = View(original: seq<LyricLine>, translated: Option<seq<LyricLine>>)

  /** `LyricsDisplay({lyrics, translatedLyrics})`. Nothing is rendered unless `lyrics` is truthy;
      the translated section is there exactly when `translatedLyrics` is truthy, and each section
      shows the lines of its own text. */
  function Render(lyrics: Option<string>, translatedLyrics: Option<string>): (v: Option<View>)
    ensures v.None? <==> !Truthy(lyrics)
    ensures v.Some? ==> v.value.original == ShownLines(lyrics.value)
    ensures v.Some? ==> (v.value.translated.Some? <==> Truthy(translatedLyrics))
    ensures v.Some? && v.value.translated.Some? ==> v.value.translated.value == ShownLines(translatedLyrics.value)
  {
    if !Truthy(lyrics) then None
    else
      var normalizedTranslated := if Truthy(translatedLyrics) then NormalizeEol(translatedLyrics.value) else [];
      var translatedLines := if normalizedTranslated != [] then KeepNonBlank(Split(normalizedTranslated)) else [];
      Some(View(ShownLines(lyrics.value), if Truthy(translatedLyrics) then Some(Display(translatedLines)) else None))
  }

  // ---------------------------------------------------------------------------------------
  // Lemmas

  /** The regex test and the closed form agree. */
  lemma {:induction false} HeaderIffBracketed(t: string)
    ensures IsHeader(t) <==> Bracketed(t)
  {
    if |t| >= 1 {
      RestOfHeaderIff(t[1..]);
      assert forall i :: 1 <= i < |t| - 1 ==> t[i] == t[1..][i - 1];
    }
  }

  lemma {:induction false} RestOfHeaderIff(s: string)
    ensures MatchesRestOfHeader(s) <==>
      |s| >= 1 && s[|s| - 1] == ']' && forall i :: 0 <= i < |s| - 1 ==> !IsLineTerminator(s[i])
    decreases |s|
  {
    if |s| > 1 {
      RestOfHeaderIff(s[1..]);
      assert forall i :: 1 <= i < |s| - 1 ==> s[i] == s[1..][i - 1];
    }
  }

  // ---------------------------------------------------------------------------------------
  // Splitting and joining

  /** Text without LF is a single segment. */
  lemma {:induction false} SplitNoLF(a: string)
    requires '\n' !in a
    ensures Split(a) == [a]
  {
    if a != [] {
      SplitNoLF(a[1..]);
      assert [a[0]] + a[1..] == a;
    }
  }

  /** A line ending in LF becomes the first segment. */
  lemma {:induction false} SplitLineThen(a: string, rest: string)
    requires '\n' !in a
    ensures Split(a + ("\n" + rest)) == [a] + Split(rest)
  {
    var s := a + ("\n" + rest);
    if a == [] {
      assert s == "\n" + rest;
      assert s[1..] == rest;
    } else {
      assert s[1..] == a[1..] + ("\n" + rest);
      SplitLineThen(a[1..], rest);
      assert [a[0]] + a[1..] == a;
    }
  }

  /** `split('\n')` undoes `join('\n')` on LF-free lines. */
  lemma {:induction false} SplitJoinLF(lines: seq<string>)
    requires |lines| >= 1
    requires forall k :: 0 <= k < |lines| ==> '\n' !in lines[k]
    ensures Split(JoinLF(lines)) == lines
  {
    if |lines| == 1 {
      SplitNoLF(lines[0]);
    } else {
      SplitJoinLF(lines[1..]);
      SplitLineThen(lines[0], JoinLF(lines[1..]));
    }
  }

  /** Every character of a segment comes from the split text. */
  lemma SplitChars(s: string, k: nat, c: char)
    requires k < |Split(s)| && c in Split(s)[k]
    ensures c in s
  {
    var segs := Split(s);
    JoinLFCharsBack(segs, k, c);
  }

  /** Every character of a line is in the joined text. */
  lemma {:induction false} JoinLFCharsBack(lines: seq<string>, k: nat, c: char)
    requires k < |lines| && c in lines[k]
    ensures c in JoinLF(lines)
  {
    if |lines| > 1 {
      if k > 0 {
        JoinLFCharsBack(lines[1..], k - 1, c);
      }
      assert JoinLF(lines) == lines[0] + ("\n" + JoinLF(lines[1..]));
    }
  }

  /** A character other than LF in joined text comes from one of the lines. */
  lemma {:induction false} JoinLFChars(lines: seq<string>, c: char)
    requires c in JoinLF(lines) && c != '\n'
    ensures exists k :: 0 <= k < |lines| && c in lines[k]
  {
    if |lines| > 1 {
      if c !in lines[0] {
        JoinLFChars(lines[1..], c);
        var k :| 0 <= k < |lines[1..]| && c in lines[1..][k];
        assert c in lines[k + 1];
      }
    }
  }

  // ---------------------------------------------------------------------------------------
  // Line-ending normalisation over concatenations

  /** Text without CR passes through the normaliser unchanged, whatever follows it. */
  lemma {:induction false} NormalizeEolPrefix(a: string, b: string)
    requires '\r' !in a
    ensures NormalizeEol(a + b) == a + NormalizeEol(b)
  {
    if a != [] {
      assert (a + b)[0] == a[0] && a[0] in a;
      assert (a + b)[1..] == a[1..] + b;
      assert '\r' !in a[1..];
      NormalizeEolPrefix(a[1..], b);
      assert [a[0]] + a[1..] == a;
    } else {
      assert a + b == b;
    }
  }

  /** No CR survives normalisation, and text without CR is left as it is. */
  lemma {:induction false} NormalizeEolRemovesCr(s: string)
    ensures '\r' !in NormalizeEol(s)
    ensures '\r' !in s ==> NormalizeEol(s) == s
    decreases |s|
  {
    if s != [] {
      if s[0] == '\r' && |s| > 1 && s[1] == '\n' {
        NormalizeEolRemovesCr(s[2..]);
      } else {
        NormalizeEolRemovesCr(s[1..]);
        assert '\r' !in s ==> '\r' !in s[1..];
        assert s == [s[0]] + s[1..];
      }
    }
  }

  /** The normaliser only turns CR into LF: every other character is kept, and nothing else
      is introduced. */
  lemma {:induction false} NormalizeEolChars(s: string, c: char)
    ensures c in NormalizeEol(s) ==> c == '\n' || c in s
    ensures c in s && c != '\r' ==> c in NormalizeEol(s)
    decreases |s|
  {
    if s != [] {
      if s[0] == '\r' && |s| > 1 && s[1] == '\n' {
        NormalizeEolChars(s[2..], c);
        assert c in s[2..] ==> c in s;
        assert c in s && c != '\r' && c != '\n' ==> c in s[2..] by {
          if c in s && c != '\r' && c != '\n' {
            var i :| 0 <= i < |s| && s[i] == c;
            assert s[2..][i - 2] == c;
          }
        }
      } else {
        NormalizeEolChars(s[1..], c);
        assert c in s[1..] ==> c in s;
        assert c in s && c != s[0] ==> c in s[1..] by {
          if c in s && c != s[0] {
            var i :| 0 <= i < |s| && s[i] == c;
            assert s[1..][i - 1] == c;
          }
        }
      }
    }
  }

  /** Each break becomes one LF, provided a lone CR is not followed by an LF (which would
      make the two one CR LF break). */
  lemma NormalizeEolBreak(b: LineBreak, y: string)
    requires b == CR ==> y == [] || y[0] != '\n'
    ensures NormalizeEol(BreakText(b) + y) == "\n" + NormalizeEol(y)
  {
    var s := BreakText(b) + y;
    match b
    case LF => assert s[1..] == y;
    case CRLF => assert s[2..] == y;
    case CR => assert s[1..] == y;
  }

  // ---------------------------------------------------------------------------------------
  // The blank filter

  lemma {:induction false} KeepNonBlankAppend(a: seq<string>, b: seq<string>)
    ensures KeepNonBlank(a + b) == KeepNonBlank(a) + KeepNonBlank(b)
  {
    if a != [] {
      assert (a + b)[0] == a[0];
      assert (a + b)[1..] == a[1..] + b;
      KeepNonBlankAppend(a[1..], b);
    } else {
      assert a + b == b;
    }
  }

  /** The filter keeps a list of non-blank lines as it is. */
  lemma {:induction false} KeepNonBlankKeepsAll(lines: seq<string>)
    requires forall k :: 0 <= k < |lines| ==> !IsBlank(lines[k])
    ensures KeepNonBlank(lines) == lines
  {
    if lines != [] {
      KeepNonBlankKeepsAll(lines[1..]);
    }
  }

  /** The filter's output is exactly the non-blank segments, in their original order: its `k`th
      element is the segment at the `k`th non-blank position. Nothing is reordered, merged or
      dropped other than blank segments. */
  lemma FilterSelectsNonBlank(segs: seq<string>)
    ensures |KeepNonBlank(segs)| == |NonBlankPositions(segs, 0)|
    ensures forall k :: 0 <= k < |KeepNonBlank(segs)| ==>
      KeepNonBlank(segs)[k] == segs[NonBlankPositions(segs, 0)[k]]
  {
    FilterSelectsFrom(segs, 0);
    assert segs[0..] == segs;
  }

  lemma {:induction false} FilterSelectsFrom(segs: seq<string>, from: nat)
    requires from <= |segs|
    ensures |KeepNonBlank(segs[from..])| == |NonBlankPositions(segs, from)|
    ensures forall k :: 0 <= k < |KeepNonBlank(segs[from..])| ==>
      KeepNonBlank(segs[from..])[k] == segs[NonBlankPositions(segs, from)[k]]
    decreases |segs| - from
  {
    if from < |segs| {
      var tail := KeepNonBlank(segs[from + 1..]);
      var tailPositions := NonBlankPositions(segs, from + 1);
      FilterSelectsFrom(segs, from + 1);
      assert segs[from..][0] == segs[from];
      assert segs[from..][1..] == segs[from + 1..];
      if IsBlank(segs[from]) {
        assert KeepNonBlank(segs[from..]) == tail;
        assert NonBlankPositions(segs, from) == tailPositions;
      } else {
        var r, p := KeepNonBlank(segs[from..]), NonBlankPositions(segs, from);
        assert r == [segs[from]] + tail;
        assert p == [from] + tailPositions;
        forall k | 0 <= k < |r| ensures r[k] == segs[p[k]] {
          if k > 0 {
            assert r[k] == tail[k - 1] && p[k] == tailPositions[k - 1];
          }
        }
      }
    } else {
      assert segs[from..] == [];
    }
  }

  // ---------------------------------------------------------------------------------------
  // Properties of the pipeline

  /** Whatever mix of LF, CR LF and lone CR separates the lines of a text, the displayed lines
      are the non-blank ones among them, in order. */
  lemma {:induction false} AnyLineBreakConvention(lines: seq<string>, breaks: seq<LineBreak>)
    requires |lines| == |breaks| + 1
    requires forall k :: 0 <= k < |lines| ==> NoLineBreaks(lines[k])
    ensures Lines(JoinWith(lines, breaks)) == KeepNonBlank(lines)
    decreases |breaks|
  {
    if breaks == [] {
      NormalizeEolRemovesCr(lines[0]);
      SplitNoLF(lines[0]);
      assert lines == [lines[0]];
    } else if breaks[0] == CR && lines[1] == [] && |breaks| > 1 && breaks[1] == LF {
      // the lone CR and the LF after the empty line read as one CR LF break
      var lines', breaks' := [lines[0]] + lines[2..], [CRLF] + breaks[2..];
      JoinCrThenEmptyLf(lines, breaks);
      AnyLineBreakConvention(lines', breaks');
      DropEmptyLine(lines);
    } else {
      var y := JoinWith(lines[1..], breaks[1..]);
      AnyLineBreakConvention(lines[1..], breaks[1..]);
      JoinWithStart(lines[1..], breaks[1..]);
      assert lines[1..][0] == lines[1] && lines[1] !in ["\n"];
      if breaks[0] == CR && lines[1] == [] && |breaks| > 1 {
        assert breaks[1..][0] == breaks[1] && breaks[1] != LF;
      }
      PrependLine(lines[0], breaks[0], y);
      KeepNonBlankAppend([lines[0]], lines[1..]);
      assert [lines[0]] + lines[1..] == lines;
    }
  }

  /** One line and the break after it come out as that line, if it is not blank, followed by
      the lines of the rest: the inductive step of `AnyLineBreakConvention`. */
  lemma PrependLine(l: string, b: LineBreak, y: string)
    requires NoLineBreaks(l)
    requires b == CR ==> y == [] || y[0] != '\n'
    ensures Lines(l + (BreakText(b) + y)) == KeepNonBlank([l]) + Lines(y)
  {
    NormalizeLineThen(l, b, y);
    SplitLineThen(l, NormalizeEol(y));
    KeepNonBlankAppend([l], Split(NormalizeEol(y)));
  }

  lemma NormalizeLineThen(l: string, b: LineBreak, y: string)
    requires NoLineBreaks(l)
    requires b == CR ==> y == [] || y[0] != '\n'
    ensures NormalizeEol(l + (BreakText(b) + y)) == l + ("\n" + NormalizeEol(y))
  {
    NormalizeEolBreak(b, y);
    NormalizeEolPrefix(l, BreakText(b) + y);
  }

  /** How a joined text starts: with its first line, or, when that is empty, with the first
      break (or it is empty altogether). */
  lemma JoinWithStart(lines: seq<string>, breaks: seq<LineBreak>)
    requires |lines| == |breaks| + 1
    ensures lines[0] != [] ==> JoinWith(lines, breaks) != [] && JoinWith(lines, breaks)[0] == lines[0][0]
    ensures lines[0] == [] && breaks == [] ==> JoinWith(lines, breaks) == []
    ensures lines[0] == [] && breaks != [] ==>
      JoinWith(lines, breaks) != [] && JoinWith(lines, breaks)[0] == BreakText(breaks[0])[0]
  {
    if breaks != [] {
      var rest := JoinWith(lines[1..], breaks[1..]);
      assert JoinWith(lines, breaks) == lines[0] + (BreakText(breaks[0]) + rest);
    }
  }

  /** An empty second line is dropped by the filter. */
  lemma DropEmptyLine(lines: seq<string>)
    requires |lines| > 1 && lines[1] == []
    ensures KeepNonBlank(lines) == KeepNonBlank([lines[0]] + lines[2..])
  {
    assert Trim(lines[1]) == [];
    assert lines[1..][1..] == lines[2..];
    KeepNonBlankAppend([lines[0]], lines[1..]);
    KeepNonBlankAppend([lines[0]], lines[2..]);
    assert [lines[0]] + lines[1..] == lines;
  }

  /** A CR break, an empty line and an LF break join to the same text as one CR LF break. */
  lemma JoinCrThenEmptyLf(lines: seq<string>, breaks: seq<LineBreak>)
    requires |lines| == |breaks| + 1 && |breaks| > 1
    requires breaks[0] == CR && lines[1] == [] && breaks[1] == LF
    ensures JoinWith(lines, breaks) == JoinWith([lines[0]] + lines[2..], [CRLF] + breaks[2..])
  {
    var lines', breaks' := [lines[0]] + lines[2..], [CRLF] + breaks[2..];
    var z := JoinWith(lines[2..], breaks[2..]);
    calc {
      JoinWith(lines, breaks);
      lines[0] + ("\r" + JoinWith(lines[1..], breaks[1..]));
      { assert lines[1..][1..] == lines[2..] && breaks[1..][1..] == breaks[2..]; }
      lines[0] + ("\r" + ([] + ("\n" + z)));
      { assert "\r" + ([] + ("\n" + z)) == "\r\n" + z; }
      lines[0] + ("\r\n" + z);
      { assert lines'[1..] == lines[2..] && breaks'[1..] == breaks[2..]; }
      JoinWith(lines', breaks');
    }
  }

  /** Two texts with the same lines give the same display lines, whichever break convention
      each of them uses. */
  lemma MixedConventionsAgree(lines: seq<string>, breaks1: seq<LineBreak>, breaks2: seq<LineBreak>)
    requires |lines| == |breaks1| + 1 && |lines| == |breaks2| + 1
    requires forall k :: 0 <= k < |lines| ==> NoLineBreaks(lines[k])
    ensures Lines(JoinWith(lines, breaks1)) == Lines(JoinWith(lines, breaks2))
  {
    AnyLineBreakConvention(lines, breaks1);
    AnyLineBreakConvention(lines, breaks2);
  }

  /** Lyrics made of whitespace alone are truthy, so the view is rendered, with its Original
      section but no line in it; the view is withheld only for lyrics that are absent or empty. */
  lemma WhitespaceLyricsShowEmptySection(lyrics: string, translatedLyrics: Option<string>)
    requires lyrics != [] && AllWhitespace(lyrics)
    ensures Render(Some(lyrics), translatedLyrics).Some?
    ensures Render(Some(lyrics), translatedLyrics).value.original == []
  {
    WhitespaceGivesNoLines(lyrics);
  }

  /** A text shows no line at all iff it is empty or whitespace only. */
  lemma LinesEmptyIffWhitespace(text: string)
    ensures Lines(text) == [] <==> AllWhitespace(text)
  {
    if AllWhitespace(text) {
      WhitespaceGivesNoLines(text);
    } else {
      var i :| 0 <= i < |text| && !IsWhitespace(text[i]);
      VisibleCharGivesLine(text, i);
    }
  }

  lemma WhitespaceGivesNoLines(text: string)
    requires AllWhitespace(text)
    ensures Lines(text) == []
  {
    var n := NormalizeEol(text);
    var segs := Split(n);
    forall k | 0 <= k < |segs| ensures IsBlank(segs[k]) {
      forall j | 0 <= j < |segs[k]| ensures IsWhitespace(segs[k][j]) {
        var c := segs[k][j];
        SplitChars(n, k, c);
        NormalizeEolChars(text, c);
      }
      TrimEmptyIff(segs[k]);
    }
    KeepNonBlankAllBlank(segs);
  }

  lemma VisibleCharGivesLine(text: string, i: nat)
    requires i < |text| && !IsWhitespace(text[i])
    ensures Lines(text) != []
  {
    var n := NormalizeEol(text);
    var segs := Split(n);
    var c := text[i];
    NormalizeEolChars(text, c);
    JoinLFChars(segs, c);
    var k :| 0 <= k < |segs| && c in segs[k];
    TrimEmptyIff(segs[k]);
    FilterSelectsNonBlank(segs);
    assert k in NonBlankPositions(segs, 0);
  }

  /** The filter drops a list of blank lines entirely. */
  lemma {:induction false} KeepNonBlankAllBlank(segs: seq<string>)
    requires forall k :: 0 <= k < |segs| ==> IsBlank(segs[k])
    ensures KeepNonBlank(segs) == []
  {
    if segs != [] {
      KeepNonBlankAllBlank(segs[1..]);
    }
  }

  /** Re-normalising the displayed lines, joined by LF, shows the same lines again. */
  lemma RenormaliseIdempotent(text: string)
    ensures ShownLines(JoinLF(Texts(ShownLines(text)))) == ShownLines(text)
  {
    var rows := ShownLines(text);
    RejoinedLines(Texts(rows));
    DisplayOfTexts(rows);
  }

  /** Rows whose texts are trimmed and whose flags are the header test are what `Display`
      makes of their texts. */
  lemma DisplayOfTexts(rows: seq<LyricLine>)
    requires forall k :: 0 <= k < |rows| ==> Trim(rows[k].text) == rows[k].text
    requires forall k :: 0 <= k < |rows| ==> rows[k].isHeader == IsHeader(rows[k].text)
    ensures Display(Texts(rows)) == rows
  {
  }

  /** Lines that are already trimmed, non-empty and free of CR and LF come back unchanged
      when joined with LF and normalised again. */
  lemma RejoinedLines(ts: seq<string>)
    requires forall k :: 0 <= k < |ts| ==> ts[k] != [] && Trim(ts[k]) == ts[k] && NoLineBreaks(ts[k])
    ensures Lines(JoinLF(ts)) == ts
  {
    var j := JoinLF(ts);
    if ts == [] {
      assert Split(j) == [[]];
      assert IsBlank([]);
    } else {
      if '\r' in j {
        JoinLFChars(ts, '\r');
        assert false;
      }
      NormalizeEolRemovesCr(j);
      SplitJoinLF(ts);
      KeepNonBlankKeepsAll(ts);
    }
  }

  // ---------------------------------------------------------------------------------------
  // Worked examples

  /** Mixed CR LF and lone CR, with an empty line between: exactly two plain lines. */
  lemma ExampleMixedLineEndings()
    ensures ShownLines("Line one\r\n\r\nLine two\r") ==
      [LyricLine("Line one", false), LyricLine("Line two", false)]
  {
    var one, two := "Line one", "Line two";
    MixedEndingsText();
    PlainLines();
    MixedEndingsShown(one, two);
  }

  /** The example text, written as its lines and breaks. */
  lemma MixedEndingsText()
    ensures "Line one" + ("\r\n" + ([] + ("\r\n" + ("Line two" + ("\r" + []))))) == "Line one\r\n\r\nLine two\r"
  {
  }

  /** The example's two lines are trimmed, break-free and no headers. */
  lemma PlainLines()
    ensures NoLineBreaks("Line one") && Trim("Line one") == "Line one" && !IsHeader("Line one")
    ensures NoLineBreaks("Line two") && Trim("Line two") == "Line two" && !IsHeader("Line two")
  {
    TrimVisibleEnds("Line one");
    TrimVisibleEnds("Line two");
  }

  /** Two lines ended by CR LF, an empty line ended by CR LF and a final lone CR show as the two lines. */
  lemma MixedEndingsShown(a: string, b: string)
    requires NoLineBreaks(a) && NoLineBreaks(b)
    requires Trim(a) == a != [] && Trim(b) == b != []
    ensures ShownLines(a + ("\r\n" + ([] + ("\r\n" + (b + ("\r" + [])))))) ==
      [LyricLine(a, IsHeader(a)), LyricLine(b, IsHeader(b))]
  {
    var lines, breaks := [a, [], b, []], [CRLF, CRLF, CR];
    TwoLinesAmidEmptyOnes(a, b);
    assert NoLineBreaks([]);
    AnyLineBreakConvention(lines, breaks);
    TwoLinesKept(a, b);
  }

  lemma TwoLinesAmidEmptyOnes(a: string, b: string)
    ensures JoinWith([a, [], b, []], [CRLF, CRLF, CR]) == a + ("\r\n" + ([] + ("\r\n" + (b + ("\r" + [])))))
  {
    var lines, breaks := [a, [], b, []], [CRLF, CRLF, CR];
    assert lines[1..] == [[], b, []] && breaks[1..] == [CRLF, CR];
    assert lines[1..][1..] == [b, []] && breaks[1..][1..] == [CR];
    assert lines[1..][1..][1..] == [[]] && breaks[1..][1..][1..] == [];
  }

  lemma TwoLinesKept(a: string, b: string)
    requires Trim(a) == a != [] && Trim(b) == b != []
    ensures KeepNonBlank([a, [], b, []]) == [a, b]
    ensures Display([a, b]) == [LyricLine(a, IsHeader(a)), LyricLine(b, IsHeader(b))]
  {
    var lines := [a, [], b, []];
    assert IsBlank([]);
    assert KeepNonBlank([[]]) == [];
    assert [b, []][1..] == [[]];
    assert KeepNonBlank([b, []]) == [b];
    assert [[], b, []][1..] == [b, []];
    assert KeepNonBlank([[], b, []]) == [b];
    assert lines[1..] == [[], b, []];
  }

  /** Bracketed texts are headers, whatever lies between the brackets: `[Chorus]`, `[]` and even
      `[a] [b]`. */
  lemma HeaderExamples()
    ensures IsHeader("[Chorus]") && IsHeader("[]") && IsHeader("[a] [b]")
  {
    HeaderIffBracketed("[Chorus]");
    HeaderIffBracketed("[]");
    HeaderIffBracketed("[a] [b]");
  }

  /** Texts that do not both start with `[` and end with `]` are not headers: `Chorus`,
      `[Verse 1] extra` and a lone `[`. */
  lemma NonHeaderExamples()
    ensures !IsHeader("Chorus") && !IsHeader("[Verse 1] extra") && !IsHeader("[")
  {
    HeaderIffBracketed("[Verse 1] extra");
    HeaderIffBracketed("[");
  }

  /** The `.` of the pattern stops at a line terminator, so a bracketed text holding U+2028 is
      not a header. */
  lemma TerminatorBreaksHeader()
    ensures !IsHeader("[a\U{2028}b]")
  {
    HeaderIffBracketed("[a\U{2028}b]");
    assert "[a\U{2028}b]"[2] == '\U{2028}';
  }
}

=== FILE: popup.dfy ===
/** The popup of the browser extension (`Popup.jsx`): six pieces of component state and the
    handlers that update them. Everything the handlers ask of the browser or the network (the
    stored token, the result of the authorisation flow, the backend's answer) is passed in, so each
    handler is one deterministic step. */
module PopupView {
  import opened JsText
  import LyricsDisplay

  /** The codes offered by the language selector, in menu order. */
  const LanguageCodes: seq<string> := ["en", "hi", "es", "fr", "de", "ja", "ko"]

  // ---------------------------------------------------------------------------------------------
  // Login: what the authorisation flow hands to the redirect callback

  /** `chrome.runtime.lastError`: present or not; its `message` may itself be missing or empty. */
  datatype RuntimeError = RuntimeError(message: Option<string>)

  /** Reading `access_token` from the redirect URL's fragment: either the URL constructor throws,
      or the parameter is found (or not). */
  datatype UrlParse = InvalidUrl(message: string) | Fragment(accessToken: Option<string>)

  /** Everything the redirect callback looks at. */
  datatype AuthCallback = AuthCallback(lastError: Option<RuntimeError>, redirectUrl: Option<string>, parsed: UrlParse)

  datatype LoginOutcome = LoggedIn(token: string) | LoginFailed(message: string)

  /** The redirect callback's decision: a token is accepted only when the flow reported no error,
      handed back a redirect URL, that URL parsed and its fragment holds a non-empty token; every
      other path ends in a non-empty error message. */
  function LoginResult(cb: AuthCallback): (r: LoginOutcome)
    ensures r.LoggedIn? <==>
      cb.lastError.None? && Truthy(cb.redirectUrl) && cb.parsed.Fragment? && Truthy(cb.parsed.accessToken)
    ensures r.LoggedIn? ==> r.token == cb.parsed.accessToken.value
    ensures r.LoginFailed? ==> r.message != []
  {
    if cb.lastError.Some? || !Truthy(cb.redirectUrl) then
      LoginFailed("Login failed: " + OrElse(if cb.lastError.Some? then cb.lastError.value.message else None, "No redirect URL"))
    else match cb.parsed
      case InvalidUrl(m) => LoginFailed("Error processing login: " + m)
      case Fragment(token) =>
        if Truthy(token) then LoggedIn(token.value) else LoginFailed("No access token found in redirect URL")
  }

  /** Each failed login names its cause, and the three causes (the flow reported an error or
      handed back no URL; the URL could not be read; it held no token) are told apart by the message. */
  lemma LoginFailureCauses(cb: AuthCallback)
    requires LoginResult(cb).LoginFailed?
    ensures var m := LoginResult(cb).message;
      && (cb.lastError.Some? || !Truthy(cb.redirectUrl) <==> HasPrefix(m, "Login failed: "))
      && (cb.lastError.None? && Truthy(cb.redirectUrl) && cb.parsed.InvalidUrl? <==> HasPrefix(m, "Error processing login: "))
      && (cb.lastError.None? && Truthy(cb.redirectUrl) && cb.parsed.Fragment? <==> m == "No access token found in redirect URL")
    ensures cb.lastError.Some? && Truthy(cb.lastError.value.message) ==>
      LoginResult(cb).message == "Login failed: " + cb.lastError.value.message.value
  {
    var m := LoginResult(cb).message;
    var lead := if cb.lastError.Some? || !Truthy(cb.redirectUrl) then 'L'
      else if cb.parsed.InvalidUrl? then 'E' else 'N';
    assert m[0] == lead;
    PrefixLead(m, "Login failed: ");
    PrefixLead(m, "Error processing login: ");
  }

  /** A text with a given prefix starts with that prefix's first character. */
  lemma PrefixLead(s: string, p: string)
    requires p != []
    ensures HasPrefix(s, p) ==> s[0] == p[0]
  {
    if HasPrefix(s, p) {
      assert s[..|p|][0] == s[0];
    }
  }

  predicate HasPrefix(s: string, p: string)
  {
    |p| <= |s| && s[..|p|] == p
  }

  // ---------------------------------------------------------------------------------------------
  // Translate: the request, the backend's answer and what the handler makes of it

  /** The JSON body posted to the backend: the selected language and the stored token. */
  datatype TranslateRequest = TranslateRequest(targetLang: string, accessToken: string)

  /** A response body: not JSON (with the parser's message), or a JSON object whose string fields
      `lyrics`, `translated_lyrics` and `error` may each be missing. */
  datatype Body = Unparsable(message: string) | Json(lyrics: Option<string>, translatedLyrics: Option<string>, error: Option<string>)

  /** What `fetch` does: reject with an error message, or resolve to a response with its `ok` flag. */
  datatype FetchResult = NetworkFailure(message: string) | Response(ok: bool, body: Body)

  datatype TranslateOutcome = Failed(message: string) | Translated(lyrics: string, translation: string)

  /** The messages of the errors the runtime throws on the way (a failed `fetch`, a body that is
      not JSON) are non-empty. */
  predicate ThrowsWithMessage(f: FetchResult)
  {
    match f
    case NetworkFailure(m) => m != []
    case Response(ok, body) => ok && body.Unparsable? ==> body.message != []
  }

  /** The body of the translate handler, from reading the stored token to the last setter:
      without a token nothing is sent; otherwise one request carrying the selected language and the
      token goes to `backend`. */
  function TranslateResult(stored: Option<string>, targetLang: string, backend: TranslateRequest -> FetchResult): (r: TranslateOutcome)
    ensures !Truthy(stored) ==> r == Failed("Please login to Spotify first")
    ensures r.Translated? ==> r.lyrics != [] && r.translation != []
  {
    if !Truthy(stored) then Failed("Please login to Spotify first")
    else match backend(TranslateRequest(targetLang, stored.value))
      case NetworkFailure(m) => Failed(m)
      case Response(ok, body) =>
        if !ok then
          // a body that does not parse is read as `{}`
          Failed(if body.Json? then OrElse(body.error, "Translation failed") else "Translation failed")
        else match body
          case Unparsable(m) => Failed(m)
          case Json(lyrics, translated, _) =>
            Translated(OrElse(lyrics, "No lyrics available"), OrElse(translated, "Translation not available"))
  }

  /** The outcome depends on the backend only through the one request: the selected language and
      the stored token. */
  lemma TranslateAsksOnce(stored: Option<string>, targetLang: string, b1: TranslateRequest -> FetchResult, b2: TranslateRequest -> FetchResult)
    requires Truthy(stored) ==> b1(TranslateRequest(targetLang, stored.value)) == b2(TranslateRequest(targetLang, stored.value))
    ensures TranslateResult(stored, targetLang, b1) == TranslateResult(stored, targetLang, b2)
  {
  }

  /** A rejected request reports the body's `error` field when it is a non-empty string, and
      `'Translation failed'` otherwise; no lyrics are produced. */
  lemma TranslateRejected(stored: Option<string>, targetLang: string, backend: TranslateRequest -> FetchResult)
    requires Truthy(stored)
    requires var f := backend(TranslateRequest(targetLang, stored.value)); f.Response? && !f.ok
    ensures var body := backend(TranslateRequest(targetLang, stored.value)).body;
      TranslateResult(stored, targetLang, backend) ==
        Failed(if body.Json? && Truthy(body.error) then body.error.value else "Translation failed")
  {
  }

  /** An accepted request with a JSON body fills both texts, each from its field or, when that is
      missing or empty, from its placeholder; the `error` field of the body is ignored. */
  lemma TranslateAccepted(stored: Option<string>, targetLang: string, backend: TranslateRequest -> FetchResult)
    requires Truthy(stored)
    requires var f := backend(TranslateRequest(targetLang, stored.value)); f.Response? && f.ok && f.body.Json?
    ensures var body := backend(TranslateRequest(targetLang, stored.value)).body;
      var r := TranslateResult(stored, targetLang, backend);
      && r.Translated?
      && (Truthy(body.lyrics) ==> r.lyrics == body.lyrics.value)
      && (!Truthy(body.lyrics) ==> r.lyrics == "No lyrics available")
      && (Truthy(body.translatedLyrics) ==> r.translation == body.translatedLyrics.value)
      && (!Truthy(body.translatedLyrics) ==> r.translation == "Translation not available")
  {
  }

  /** Lyrics are produced exactly when a token is stored and the backend accepts the request with
      a JSON body; any other path fails, and with non-empty thrown messages it fails with a
      non-empty message. */
  lemma TranslateSucceedsIff(stored: Option<string>, targetLang: string, backend: TranslateRequest -> FetchResult)
    ensures var r := TranslateResult(stored, targetLang, backend);
      r.Translated? <==>
        Truthy(stored) && var f := backend(TranslateRequest(targetLang, stored.value)); f.Response? && f.ok && f.body.Json?
    ensures var r := TranslateResult(stored, targetLang, backend);
      r.Failed? && (Truthy(stored) ==> ThrowsWithMessage(backend(TranslateRequest(targetLang, stored.value)))) ==> r.message != []
  {
  }

  // ---------------------------------------------------------------------------------------------
  // The component

  class Popup {
    var targetLang: string
    var lyrics: string
    var translatedLyrics: string
    var loading: bool
    var error: string
    var isLoggedIn: bool
    /** Whether the mount effect (the first read of the stored token) has run. */
    ghost var mounted: bool

    /** What every sequence of user actions keeps: no translate is in flight between actions, an
        error and lyrics are never shown together, both texts are set or cleared together, lyrics
        are only shown to a logged-in user, no one is logged in before the mount effect has run, and the
        selected language is one of the menu's. */
    ghost predicate Consistent()
      reads this
    {
      && !loading
      && (error == [] || lyrics == [])
      && (lyrics == [] <==> translatedLyrics == [])
      && (!isLoggedIn ==> lyrics == [])
      && (!mounted ==> !isLoggedIn)
      && targetLang in LanguageCodes
    }

    /** The initial state. */
    constructor()
      ensures targetLang == "en" && lyrics == [] && translatedLyrics == []
      ensures !loading && error == [] && !isLoggedIn && !mounted
      ensures Consistent()
    {
      targetLang, lyrics, translatedLyrics := "en", [], [];
      loading, error, isLoggedIn := false, [], false;
      mounted := false;
    }

    /** The mount effect: logged in iff a non-empty token is stored. */
    method Mount(stored: Option<string>)
      requires !mounted
      modifies this
      ensures mounted && isLoggedIn == Truthy(stored)
      ensures targetLang == old(targetLang) && lyrics == old(lyrics) && translatedLyrics == old(translatedLyrics)
      ensures loading == old(loading) && error == old(error)
      ensures old(Consistent()) ==> Consistent()
    {
      isLoggedIn := Truthy(stored);
      mounted := true;
    }

    /** The redirect callback of the login flow. A token is written to storage (returned as
        `written`), marks the user logged in and clears the error; any failure sets a non-empty
        error and leaves the login state alone. The lyrics are not touched. */
    method HandleLoginCallback(cb: AuthCallback) returns (written: Option<string>)
      modifies this
      ensures LoginResult(cb).LoggedIn? ==> written == Some(LoginResult(cb).token) && isLoggedIn && error == []
      ensures LoginResult(cb).LoginFailed? ==>
        written == None && isLoggedIn == old(isLoggedIn) && error == LoginResult(cb).message && error != []
      ensures targetLang == old(targetLang) && lyrics == old(lyrics) && translatedLyrics == old(translatedLyrics)
      ensures loading == old(loading) && mounted == old(mounted)
    {
      match LoginResult(cb)
      case LoggedIn(token) =>
        written := Some(token);
        isLoggedIn := true;
        error := [];
      case LoginFailed(message) =>
        written := None;
        error := message;
    }

    /** Logout: the stored token is removed, the user is logged out and both texts are cleared, so
        the lyrics view renders nothing; the error, the language and `loading` stay as they were. */
    method HandleLogout()
      modifies this
      ensures !isLoggedIn && lyrics == [] && translatedLyrics == []
      ensures error == old(error) && targetLang == old(targetLang) && loading == old(loading) && mounted == old(mounted)
      ensures Shown() == None
    {
      isLoggedIn := false;
      lyrics := [];
      translatedLyrics := [];
    }

    /** The synchronous start of the translate handler: loading, with error and texts cleared. */
    method StartTranslate()
      modifies this
      ensures loading && error == [] && lyrics == [] && translatedLyrics == []
      ensures targetLang == old(targetLang) && isLoggedIn == old(isLoggedIn) && mounted == old(mounted)
    {
      loading := true;
      error := [];
      lyrics := [];
      translatedLyrics := [];
    }

    /** The rest of the translate handler, once the stored token and the backend have answered:
        either the error or both texts are set, and `loading` is reset in every case. */
    method CompleteTranslate(stored: Option<string>, backend: TranslateRequest -> FetchResult)
      modifies this
      ensures !loading
      ensures var r := TranslateResult(stored, old(targetLang), backend);
        match r
        case Failed(m) => error == m && lyrics == old(lyrics) && translatedLyrics == old(translatedLyrics)
        case Translated(l, t) => error == old(error) && lyrics == l && translatedLyrics == t
      ensures targetLang == old(targetLang) && isLoggedIn == old(isLoggedIn) && mounted == old(mounted)
    {
      var outcome := TranslateResult(stored, targetLang, backend);
      if outcome.Failed? {
        error := outcome.message;
      } else {
        lyrics := outcome.lyrics;
        translatedLyrics := outcome.translation;
      }
      loading := false;
    }

    /** The whole translate handler, run as one step: afterwards nothing is loading, and either the
        error is set and no lyrics are shown, or both texts are set and there is no error. */
    method HandleTranslate(stored: Option<string>, backend: TranslateRequest -> FetchResult)
      modifies this
      ensures !loading
      ensures var r := TranslateResult(stored, old(targetLang), backend);
        match r
        case Failed(m) => error == m && lyrics == [] && translatedLyrics == []
        case Translated(l, t) => error == [] && lyrics == l && translatedLyrics == t && l != [] && t != []
      ensures !Truthy(stored) ==> error == "Please login to Spotify first" && lyrics == [] && translatedLyrics == []
      ensures Truthy(stored) && ThrowsWithMessage(backend(TranslateRequest(old(targetLang), stored.value))) ==>
        (error != [] <==> lyrics == [])
      ensures targetLang == old(targetLang) && isLoggedIn == old(isLoggedIn) && mounted == old(mounted)
    {
      StartTranslate();
      CompleteTranslate(stored, backend);
      TranslateSucceedsIff(stored, targetLang, backend);
    }

    /** The language selector's change handler. */
    method SelectLanguage(code: string)
      modifies this
      ensures targetLang == code
      ensures lyrics == old(lyrics) && translatedLyrics == old(translatedLyrics) && loading == old(loading)
      ensures error == old(error) && isLoggedIn == old(isLoggedIn) && mounted == old(mounted)
    {
      targetLang := code;
    }

    /** The translate button is enabled only when logged in and not already loading. Between
        actions no translate is in flight, so there the login flag alone decides. */
    predicate TranslateEnabled()
      reads this
      ensures Consistent() ==> (TranslateEnabled() <==> isLoggedIn)
    {
      !loading && isLoggedIn
    }

    /** What the lyrics view renders for the current state. */
    function Shown(): (v: Option<LyricsDisplay.View>)
      reads this
      ensures v.None? <==> lyrics == []
    {
      LyricsDisplay.Render(Some(lyrics), Some(translatedLyrics))
    }

    // -------------------------------------------------------------------------------------------
    // User actions: each handler as the rendered controls let it be triggered

    /** Clicking "Login with Spotify" (shown only when logged out) and the flow calling back:
        the callback's whole effect, and `Consistent` is kept. */
    method ClickLogin(cb: AuthCallback) returns (written: Option<string>)
      requires mounted && !isLoggedIn && Consistent()
      modifies this
      ensures Consistent()
      ensures isLoggedIn <==> LoginResult(cb).LoggedIn?
      ensures LoginResult(cb).LoggedIn? ==> written == Some(LoginResult(cb).token) && error == []
      ensures LoginResult(cb).LoginFailed? ==> written == None && error == LoginResult(cb).message && error != []
      ensures targetLang == old(targetLang) && lyrics == old(lyrics) && translatedLyrics == old(translatedLyrics)
      ensures loading == old(loading) && mounted == old(mounted)
    {
      written := HandleLoginCallback(cb);
    }

    /** Clicking "Logout from Spotify" (shown only when logged in): logged out with nothing
        rendered, the error and the language kept, and `Consistent` kept. */
    method ClickLogout()
      requires mounted && isLoggedIn && Consistent()
      modifies this
      ensures Consistent() && !isLoggedIn && lyrics == [] && translatedLyrics == [] && Shown() == None
      ensures error == old(error) && targetLang == old(targetLang) && loading == old(loading)
      ensures mounted == old(mounted)
    {
      HandleLogout();
    }

    /** Clicking "Translate Current Song" while the button is enabled: the error or both texts
        come from `TranslateResult`, `Consistent` is kept, and when the runtime's error messages
        are non-empty exactly one of the error and the lyrics is shown. */
    method ClickTranslate(stored: Option<string>, backend: TranslateRequest -> FetchResult)
      requires mounted && TranslateEnabled() && Consistent()
      modifies this
      ensures Consistent()
      ensures var r := TranslateResult(stored, old(targetLang), backend);
        match r
        case Failed(m) => error == m && lyrics == [] && translatedLyrics == []
        case Translated(l, t) => error == [] && lyrics == l && translatedLyrics == t
      ensures Truthy(stored) && ThrowsWithMessage(backend(TranslateRequest(old(targetLang), stored.value))) ==>
        (error != [] <==> lyrics == [])
      ensures !Truthy(stored) ==> error == "Please login to Spotify first" && lyrics == []
      ensures targetLang == old(targetLang) && isLoggedIn == old(isLoggedIn) && mounted == old(mounted)
    {
      HandleTranslate(stored, backend);
    }

    /** Picking a language from the menu (enabled only when logged in): only the language
        changes, and `Consistent` is kept. */
    method PickLanguage(code: string)
      requires mounted && isLoggedIn && Consistent() && code in LanguageCodes
      modifies this
      ensures Consistent() && targetLang == code
      ensures lyrics == old(lyrics) && translatedLyrics == old(translatedLyrics)
      ensures error == old(error) && isLoggedIn == old(isLoggedIn) && loading == old(loading)
      ensures mounted == old(mounted)
    {
      SelectLanguage(code);
    }
  }
}
